=== FILE: README.md ===
# Bipartite matching over a residual flow network

This project models `Matching`, the façade of the open-structures matching
library. It turns a bipartite graph between a set U and a set V into a flow
network `Source -> U -> V -> Sink`:

- every element of U gets one unit from Source;
- every compatible pair (u, v) gets a unit arc u -> v;
- every element of V sends its quantity to Sink.

It then lets a caller do four things:

- pin pairs by hand (`setMatch`);
- raise the count of an element of U (`increaseUCount`);
- read the matched pairs back off the residual network (`getMatches`);
- snapshot and restore the flow state (`getState` / `restore`).

The flow network and its push-relabel solver belong to an external flow
library. The model sees them only through what the façade observes:

- a residual capacity for every ordered pair of nodes;
- successor and predecessor queries;
- a forced push, which moves capacity from an arc to its reverse.

The project has four modules.

- `Network` (`network.dfy`) is that residual view. It has the tagged nodes
  `Source | Sink | UNode(u) | VNode(v)`, the pure operations `Successors`,
  `Predecessors` and `Push`, and the class `FlowNetwork`, whose residual map
  its methods update in place.
- `MatchingRules` (`matching_rules.dfy`) holds the façade's rules as
  functions over residual maps. It covers:
  - the capacity layout of a new matching;
  - the ordered checks of a manual match (`Decide`) and the network after it
    (`SetMatchResidual`);
  - the checks of a capacity increase (`IncreaseVerdict`) and the network
    after it (`IncreaseResidual`);
  - the matched-pair test (`Reported`);
  - the invariant `WellFormed`, which construction establishes and both
    mutating operations keep. It fixes which arcs may carry capacity and
    the combined capacity of every U–V and V–Sink arc pair, and it states
    flow conservation at every element of U and of V;
  - the counts of the elements of U (`CountsKept`). The combined capacity
    of Source->u and u->Source is the count of u: 1 after construction,
    raised by every successful `increaseUCount`, and kept by every manual
    match.

  Under the invariant and the counts, every reported pair is one the
  predicate accepted. No v is reported with more elements of U than its
  quantity, and no u is matched with more elements of V than its count.
  These are the two halves of the promise of the Javadoc at
  Matching.java:69. A u whose count is one is reported with one v at most.
- `BipartiteMatching` (`matching.dfy`) is the façade itself: the class
  `Matching`, whose methods mirror the Java control flow. Construction uses
  nested loops, the manual match runs its guard chain and then three pushes,
  and the match query uses nested loops over successors and predecessors.
  The class also keeps two ghost fields: the current count of every u, and
  every snapshot `getState` handed out together with the counts at that
  moment. Each method is proved against the rules above and keeps `Valid()`. The
  module ends with the manual-match and snapshot/restore scenarios of the
  unit tests (MatchingTest.java:157-204), replayed against the contracts.
  The tests' strings u1..u3 and v1..v3 become the integers 1..3 and
  11..13, so that no element of U equals an element of V.
- `NodeCollision` (`node_collision.dfy`) models node identity as the Java
  code writes it. It exhibits the finding below.

Two points follow the code where a reader might expect otherwise:

- `getMatches` returns a `Map<U, V>`, one v per u (Matching.java:53-64).
  The unit tests read a table of counts instead (MatchingTest.java:96, 136).
- `restore` hands the whole flow state back to the solver (Matching.java:162).
  The model restores the entire residual map, which is what the unit test
  checks at MatchingTest.java:200-203. The counts return with it to what
  they were when the snapshot was taken.

## Model

| member | source | states |
|---|---|---|
| `Network.Successors` | src/main/java/org/open_structures/matching/Matching.java:180-181 | a node is a successor of n exactly when the arc from n to it has positive residual capacity |
| `Network.Predecessors` | src/main/java/org/open_structures/matching/Matching.java:56 | a node is a predecessor of n exactly when the arc from it to n has positive residual capacity |
| `Network.Push` | src/main/java/org/open_structures/matching/Matching.java:149-151 | a push of a units lowers o->d by a and raises d->o by a, and leaves every other arc unchanged; it is allowed only up to the residual capacity |
| `Network.PushConservesPairCapacity` | src/main/java/org/open_structures/matching/Matching.java:149-151 | a push never changes the combined capacity of an arc and its reverse |
| `Network.PushBackCancels` | src/main/java/org/open_structures/matching/Matching.java:149-151 | pushed flow can always be pushed back, and pushing it back restores every capacity |
| `Network.FlowNetwork.constructor` | src/main/java/org/open_structures/matching/Matching.java:96 | a new network has no arc with capacity |
| `Network.FlowNetwork.SetArcCapacity` | src/main/java/org/open_structures/matching/Matching.java:98 | setting an arc's capacity overwrites that one arc and keeps every other |
| `Network.FlowNetwork.PushFlow` | src/main/java/org/open_structures/matching/Matching.java:149-151 | the in-place push leaves exactly the residual map that `Push` gives |
| `MatchingRules.UnitQuantitiesLayout` | src/main/java/org/open_structures/matching/Matching.java:77-80 | the set-based constructor lays out quantity 1 to Sink for every v in the set and 0 for any other, with the same Source and U-V arcs |
| `MatchingRules.InitialIsWellFormed` | src/main/java/org/open_structures/matching/Matching.java:94-112 | a freshly built network satisfies the matching invariant, flow conservation included |
| `MatchingRules.TerminalNeighboursAreValues` | src/main/java/org/open_structures/matching/Matching.java:55-58 | in a network with the invariant the successors of Sink are elements of V and the predecessors of Source are elements of U, so the query's casts are sound |
| `MatchingRules.Decide` | src/main/java/org/open_structures/matching/Matching.java:128-148 | the manual match is already done iff v->u has capacity; otherwise it fails with the u error iff Source->u is empty ("already matched" iff u->Source has capacity); then with the v error iff v->Sink is empty ("already matched" iff Sink->v has capacity); then with no path iff u->v is empty; and it is accepted iff none of these holds |
| `MatchingRules.SetMatchResidual` | src/main/java/org/open_structures/matching/Matching.java:119-152 | a match that is not accepted leaves the network unchanged; an accepted one moves one unit along each of Source->u, u->v and v->Sink and touches no other arc |
| `MatchingRules.SetMatchKeepsWellFormed` | src/main/java/org/open_structures/matching/Matching.java:119-152 | a manual match keeps the matching invariant |
| `MatchingRules.UnitShiftKeepsWellFormed` | src/main/java/org/open_structures/matching/Matching.java:149-151 | moving one unit along Source->u->v->Sink keeps the matching invariant |
| `MatchingRules.UnitShiftKeepsLayout` | src/main/java/org/open_structures/matching/Matching.java:149-151 | the same shift keeps the allowed arcs, the combined capacity of every U–V and V–Sink arc pair, and Source's links to elements of U only |
| `MatchingRules.UnitShiftKeepsSinkSide` | src/main/java/org/open_structures/matching/Matching.java:150-151 | the same shift keeps conservation at every v: v gains u as a partner and one unit towards Sink, and no other v changes |
| `MatchingRules.UnitShiftKeepsSourceSide` | src/main/java/org/open_structures/matching/Matching.java:149-150 | the same shift keeps conservation at every u: u gains v as a partner and one unit back to Source, and no other u changes |
| `MatchingRules.UnitShiftPartnersOfU` | src/main/java/org/open_structures/matching/Matching.java:150 | after the shift, the partners of u are its old partners plus v, and those of every other element of U are unchanged |
| `MatchingRules.SetMatchIdempotent` | src/main/java/org/open_structures/matching/Matching.java:128-131 | matching the same pair a second time changes nothing |
| `MatchingRules.PinnedPairIsReported` | src/main/java/org/open_structures/matching/Matching.java:128-151 | after an accepted match the pair is reported; a u whose residual arc from Source was 1 then gets only "already matched" from every further match; a v whose residual arc to Sink was 1 then accepts no further match |
| `MatchingRules.SetMatchReportsOnePairMore` | src/test/java/org/open_structures/matching/MatchingTest.java:163-170 | in a network with the invariant, the pairs reported after a manual match are exactly those reported before, plus (u, v) when the match was accepted; no earlier pair is lost |
| `MatchingRules.DisjointPinKeepsDecision` | src/main/java/org/open_structures/matching/Matching.java:128-148 | a manual match does not change the decision for a pair that shares neither its u nor its v |
| `MatchingRules.DecideOnInitial` | src/main/java/org/open_structures/matching/Matching.java:132-148 | on a fresh network a match is accepted exactly when u is in U, v is in V with a positive quantity and the predicate holds; otherwise it fails with "u not in matching", "v not in matching" or "no path", in that order |
| `MatchingRules.IncreaseVerdict` | src/main/java/org/open_structures/matching/Matching.java:43-47 | the increase fails with "not positive" iff it is not positive; it fails with "not adjacent" iff it is positive and both Source->u and u->Source are empty; it passes iff it is positive and one of the two has capacity |
| `MatchingRules.IncreaseResidual` | src/main/java/org/open_structures/matching/Matching.java:41-51 | when the checks fail the network is unchanged; when they pass Source->u grows by the increase; no other arc changes either way |
| `MatchingRules.IncreaseKeepsWellFormed` | src/main/java/org/open_structures/matching/Matching.java:41-51 | a capacity increase keeps the matching invariant |
| `MatchingRules.InitialCountsKept` | src/main/java/org/open_structures/matching/Matching.java:101-103 | a freshly built network gives every u of the matching a count of one, and every other u a count of zero |
| `MatchingRules.SetMatchKeepsCounts` | src/main/java/org/open_structures/matching/Matching.java:149 | a manual match keeps every count: its push only moves a unit of u from Source->u to u->Source |
| `MatchingRules.IncreaseRaisesCount` | src/main/java/org/open_structures/matching/Matching.java:49-50 | a successful increase raises the count of u by the increase and keeps every other count; a failed one keeps them all |
| `MatchingRules.IncreaseStep` | src/main/java/org/open_structures/matching/Matching.java:49-50 | writing the current Source->u capacity plus the increase back to that arc is the increased network, and it keeps the invariant and the raised counts |
| `MatchingRules.PartnersWithinCount` | src/main/java/org/open_structures/matching/Matching.java:66-70 | in a network with the invariant and the counts, the elements of V matched with u are at most the count of u |
| `MatchingRules.SingleCountHasOnePartner` | src/main/java/org/open_structures/matching/Matching.java:66-70 | a u whose count is at most one is reported with one v at most |
| `MatchingRules.SourceArcKeepsConservation` | src/main/java/org/open_structures/matching/Matching.java:49-50 | changing only Source->u keeps flow conserved at every element of U and of V |
| `MatchingRules.ReportedPairsAreCompatible` | src/main/java/org/open_structures/matching/Matching.java:53-64 | in a network with the invariant every reported pair has u in U, v in V and the predicate true, and its U-V arc carries exactly its one unit |
| `MatchingRules.ReportedIffReverseArc` | src/main/java/org/open_structures/matching/Matching.java:55-58 | in a network with the invariant a pair is reported exactly when v sends a unit back to u |
| `MatchingRules.PartnersWithinQuantity` | src/main/java/org/open_structures/matching/Matching.java:66-70 | in a network with the invariant the elements of U matched with v are at most the quantity of v |
| `MatchingRules.QueryWithinQuantity` | src/main/java/org/open_structures/matching/Matching.java:53-70 | a match query over a network with the invariant returns, for every v, at most the quantity of v elements of U, and at most as many pairs as U has elements |
| `MatchingRules.QueryExactOnSingleCounts` | src/main/java/org/open_structures/matching/Matching.java:53-64 | a match query result that holds only reported pairs and has every reported u as a key maps each u of count at most one to exactly the v it is reported with |
| `BipartiteMatching.Matching.constructor` | src/main/java/org/open_structures/matching/Matching.java:24-27 | wraps a network that satisfies the invariant and gives every u of the matching a count of one; no snapshot is recorded yet |
| `BipartiteMatching.Matching.NewMatching` | src/main/java/org/open_structures/matching/Matching.java:89-113 | after the nested construction loops, Source->u is 1 for u in U, u->v is 1 exactly for compatible pairs, v->Sink is the quantity of v, every other arc is 0, every u of the matching has count one, and the result is valid |
| `BipartiteMatching.Matching.NewMatchingOfSets` | src/main/java/org/open_structures/matching/Matching.java:72-81 | the set overload builds the network of `NewMatching` with quantity 1 for every v |
| `BipartiteMatching.Matching.IncreaseUCount` | src/main/java/org/open_structures/matching/Matching.java:41-51 | fails exactly as `IncreaseVerdict` says and then leaves the network and the counts unchanged; otherwise it installs the network `IncreaseResidual` gives and raises the count of u by the increase; it stays valid either way |
| `BipartiteMatching.Matching.ExistsFlow` | src/main/java/org/open_structures/matching/Matching.java:179-186 | the scan over successors finds the destination exactly when the arc has positive capacity |
| `BipartiteMatching.Matching.GetMatches` | src/main/java/org/open_structures/matching/Matching.java:53-64 | every returned pair is reported by the network; every u of a reported pair is a key; every returned pair is compatible; no v is returned with more elements of U than its quantity; a u of count one is returned with the one v it is matched with; there are at most as many pairs as U has elements |
| `BipartiteMatching.Matching.SetMatch` | src/main/java/org/open_structures/matching/Matching.java:119-152 | the guard chain and the three pushes give the network `SetMatchResidual` and fail with exactly the error `Decide` names; the matching stays valid |
| `BipartiteMatching.Matching.GetState` | src/main/java/org/open_structures/matching/Matching.java:154-157 | the snapshot is the current residual map and satisfies the invariant; it is recorded with the current counts, which do not change |
| `BipartiteMatching.Matching.Restore` | src/main/java/org/open_structures/matching/Matching.java:159-163 | restoring a recorded snapshot gives back its residual map and the counts recorded with it, and the matching stays valid |
| `BipartiteMatching.TestScenarioSteps` | src/test/java/org/open_structures/matching/MatchingTest.java:184-193 | with the tests' predicate, the match of (1, 11) on a fresh network is accepted; after it, (2, 12) is still accepted and (2, 13) has no path |
| `BipartiteMatching.TestScenarioSourceArcs` | src/test/java/org/open_structures/matching/MatchingTest.java:200-203 | after the match of (1, 11), Source->1 is 0 and Source->2 and Source->3 are 1; a further match of (2, 12) leaves Source->3 at 1 |
| `BipartiteMatching.TestFreshReportsNothing` | src/test/java/org/open_structures/matching/MatchingTest.java:160 | the fresh network of the tests satisfies the invariant and reports no pair |
| `BipartiteMatching.TestScenarioPinned` | src/test/java/org/open_structures/matching/MatchingTest.java:196-198 | after the match of (1, 11) it is the only reported pair |
| `BipartiteMatching.TestTwoPins` | src/test/java/org/open_structures/matching/MatchingTest.java:163-164 | the matches of (1, 11) and then (3, 13) on a fresh network are both accepted |
| `BipartiteMatching.TestTwoPinsReported` | src/test/java/org/open_structures/matching/MatchingTest.java:167-170 | after both matches exactly (1, 11) and (3, 13) are reported |
| `BipartiteMatching.SecondPinAddsOnePair` | src/test/java/org/open_structures/matching/MatchingTest.java:164-170 | adding the accepted pair (3, 13) to the single reported pair (1, 11) gives exactly the two pairs |
| `BipartiteMatching.QueryReadsExactly` | src/test/java/org/open_structures/matching/MatchingTest.java:167-170 | any result that meets the match query's contract on a network is exactly the map of the pairs that network reports |
| `BipartiteMatching.SetMatchScenario` | src/test/java/org/open_structures/matching/MatchingTest.java:157-170 | on the tests' matching, pinning (1, 11) and (3, 13) and then querying returns exactly the map {1: 11, 3: 13} |
| `BipartiteMatching.ChangeThenRestore` | src/test/java/org/open_structures/matching/MatchingTest.java:191-193 | after a match of (2, 12), an increase of 3 and a restore of a recorded snapshot, the residual map and the counts are the snapshot's |
| `BipartiteMatching.SetMatchAndRestoreScenario` | src/test/java/org/open_structures/matching/MatchingTest.java:183-204 | after pinning (1, 11), taking a snapshot, pinning (2, 12), increasing 3 and restoring, the Source arcs of 1, 2, 3 are 0, 1, 1 and the query returns exactly {1: 11} |
| `BipartiteMatching.RepeatedSetMatchScenario` | src/main/java/org/open_structures/matching/Matching.java:128-148 | beyond the tests: on the tests' matching, pinning (1, 11) passes, pinning it again passes without change, and pinning (2, 13) fails with no path |
| `NodeCollision.FreshSelfPairLooksMatched` | src/main/java/org/open_structures/matching/Matching.java:102-107 | with one shared node wrapper and U = V = {0}, the freshly built network already passes the "already matched" check for (0, 0), while Sink has no successor |
| `NodeCollision.TaggedSelfPairIsAccepted` | src/main/java/org/open_structures/matching/Matching.java:125-131 | with U-nodes and V-nodes tagged apart, the same match is accepted and then reported |

## Left out

- `findMatching` and `preflowPush` are not part of this model. The push-relabel algorithm lives in the external flow library, whose code is not available, and its behaviour is not invented here.
- The solver's internal state (heights, excess, active nodes) is not modelled. A snapshot is the residual map.
- Null checks on arguments are not modelled: Dafny values cannot be null.
- The unit tests read `getMatches` as a table of counts (MatchingTest.java:96, 136). The code returns a `Map<U, V>`, and the model follows the code.
- The unit test at MatchingTest.java:152 expects `increaseUCount` to raise u1->v1 to 3. The code touches only Source->u (Matching.java:49-50), and the model follows the code.
- `Network.FlowNetwork.SetArcCapacity` overwrites the residual of one arc: the model keeps a single residual number per arc, where the flow library keeps a capacity and a flow. `increaseUCount` reads and writes that number (Matching.java:49-50), so on a u whose Source arc already carries flow the model adds the increase to the remaining residual. Whether the library's `setCapacity` instead resets the arc's flow is not visible, and the model does not capture that case.
- Quantities are `nat`. A negative `Integer` quantity is not modelled.
- `BipartiteMatching.Matching.Restore` requires a snapshot that `getState` of this same matching handed out. The Java method accepts any state object, and a state from another matching, or one built by hand, could break the invariant and the counts; the model does not say what the façade does then.
- `BipartiteMatching.Matching.IncreaseUCount` adds without Java's 32-bit `int` wrap-around. At Matching.java:50 `currentCapacity + increase` past 2^31-1 would wrap to a negative capacity, and what the flow library does with it is not visible. Capacities here are unbounded naturals.
- `BipartiteMatching.Matching.GetMatches` bounds the pairs per v by its quantity and the total by the size of U. It does not state the total bound by the sum of all quantities.
- The choice of v in `BipartiteMatching.Matching.GetMatches`: the model does not fix which v a u keeps when it is matched with several, which needs a count above one (after `increaseUCount`). The Java result depends on hash-set iteration order, and the model picks an arbitrary element at each step.
- `BipartiteMatching.Matching.NewMatching` iterates over sets in an arbitrary order, where Java follows hash order. The resulting network is the same either way.
- The `BipartiteMatching` and `MatchingRules` modules keep U-nodes and V-nodes apart, unlike the Java code (see Findings). The as-written identity is modelled only in `NodeCollision`.
- The node sentinels' `toString` and the memento interface are not modelled. They carry no behaviour.

## Findings

| source | as written | input that shows it | evidently intended | confidence | as-written member | corrected member |
|---|---|---|---|---|---|---|
| src/main/java/org/open_structures/matching/Matching.java:125-131 | elements of U and of V are wrapped by the same `node(...)`, so an element of U equal to an element of V is one node, and a compatible pair (x, x) becomes a self-arc that the "already matched" check sees at once | U = V = {0}, quantity 1, a predicate that accepts every pair: `setMatch(0, 0)` on the fresh network returns without pinning anything, and `getMatches` reports nothing | U-nodes and V-nodes are distinct, so the match is accepted and then reported | medium, not executed | `NodeCollision.FreshSelfPairLooksMatched` | `NodeCollision.TaggedSelfPairIsAccepted` |

=== FILE: matching.dfy ===
/**
 The matching façade: a bipartite graph between U and V, turned into a
 flow network Source -> U -> V -> Sink whose residual capacities record
 which pairs are matched. Every operation that changes the network is
 stated against the rules of module MatchingRules, and every one keeps the
 invariant `Valid()`: the network satisfies `WellFormed`, which
 construction establishes and manual matches and capacity increases keep;
 the units of every u add up to its count; and every snapshot taken so far
 satisfies both for the counts of its time.
 */
module BipartiteMatching {
  import opened Network
  import opened MatchingRules

  /** A snapshot of the solver's flow state, i.e. of every residual capacity. */
  datatype State<U, V> = State(residual: Residuals<U, V>)

  class Matching<U(==, !new), V(==, !new)> {
    const network: FlowNetwork<U, V>

    // The inputs the network was built from, kept for the invariant only.
    ghost const pred: (U, V) -> bool
    ghost const uSet: set<U>
    ghost const quantities: map<V, nat>

    // The count of every u: 1 from construction plus every increase since.
    ghost var uCounts: map<U, nat>
    // Every snapshot `GetState` returned, with the counts at that moment.
    ghost var snapshots: map<Residuals<U, V>, map<U, nat>>

    ghost predicate Valid()
      reads this, network
    {
      && WellFormed(pred, uSet, quantities, network.residual)
      && CountsKept(uCounts, network.residual)
      && SnapshotsKept(pred, uSet, quantities, snapshots)
    }

    constructor (network: FlowNetwork<U, V>, ghost pred: (U, V) -> bool, ghost uSet: set<U>,
                 ghost quantities: map<V, nat>)
      requires WellFormed(pred, uSet, quantities, network.residual)
      requires CountsKept(InitialCounts(uSet), network.residual)
      ensures this.network == network && this.pred == pred && this.uSet == uSet && this.quantities == quantities
      ensures uCounts == InitialCounts(uSet) && snapshots == map[]
      ensures Valid()
    {
      this.network := network;
      this.pred := pred;
      this.uSet := uSet;
      this.quantities := quantities;
      this.uCounts := InitialCounts(uSet);
      this.snapshots := map[];
    }

    /**
     Builds the network: v->Sink with the quantity of v for every v, then
     Source->u with capacity 1 for every u, and u->v with capacity 1 for
     every v that the predicate accepts with u.
     */
    static method NewMatching(pred: (U, V) -> bool, uSet: set<U>, quantities: map<V, nat>) returns (m: Matching<U, V>)
      ensures fresh(m) && fresh(m.network)
      ensures m.pred == pred && m.uSet == uSet && m.quantities == quantities && m.Valid()
      ensures m.uCounts == InitialCounts(uSet) && m.snapshots == map[]
      ensures forall o, d :: Capacity(m.network.residual, o, d) == InitialCapacity(pred, uSet, quantities, o, d)
    {
      var network := new FlowNetwork<U, V>();
      var vPending := quantities.Keys;
      while vPending != {}
        invariant vPending <= quantities.Keys
        invariant forall o, d :: Capacity(network.residual, o, d)
                              == if o.VNode? && o.v in vPending then 0 else InitialCapacity(pred, {}, quantities, o, d)
        decreases vPending
      {
        var v :| v in vPending;
        network.SetArcCapacity(quantities[v], VNode(v), Sink);
        vPending := vPending - {v};
      }

      var uPending := uSet;
      while uPending != {}
        invariant uPending <= uSet
        invariant forall o, d :: Capacity(network.residual, o, d) == InitialCapacity(pred, uSet - uPending, quantities, o, d)
        decreases uPending
      {
        var u :| u in uPending;
        ghost var done := uSet - uPending + {u};
        network.SetArcCapacity(1, Source, UNode(u));
        var vs := quantities.Keys;
        while vs != {}
          invariant vs <= quantities.Keys
          invariant forall o, d :: Capacity(network.residual, o, d)
                                == if o == UNode(u) && d.VNode? && d.v in vs then 0 else InitialCapacity(pred, done, quantities, o, d)
          decreases vs
        {
          var v :| v in vs;
          if pred(u, v) {
            network.SetArcCapacity(1, UNode(u), VNode(v));
          }
          vs := vs - {v};
        }
        uPending := uPending - {u};
        assert done == uSet - uPending;
      }

      InitialIsWellFormed(pred, uSet, quantities, network.residual);
      InitialCountsKept(pred, uSet, quantities, network.residual);
      m := new Matching(network, pred, uSet, quantities);
    }

    /** The same construction with a quantity of 1 for every element of V. */
    static method NewMatchingOfSets(pred: (U, V) -> bool, uSet: set<U>, vSet: set<V>) returns (m: Matching<U, V>)
      ensures fresh(m) && fresh(m.network)
      ensures m.pred == pred && m.uSet == uSet && m.quantities == UnitQuantities(vSet) && m.Valid()
      ensures m.uCounts == InitialCounts(uSet) && m.snapshots == map[]
      ensures forall o, d :: Capacity(m.network.residual, o, d) == InitialCapacity(pred, uSet, UnitQuantities(vSet), o, d)
    {
      m := NewMatching(pred, uSet, UnitQuantities(vSet));
    }

    /**
     Raises the capacity of Source->u, and with it the count of u, by
     `increase`, after checking that the increase is positive and that u is
     adjacent to Source.
     */
    method IncreaseUCount(u: U, increase: int) returns (outcome: Outcome<IncreaseError>)
      requires Valid()
      modifies this, network
      ensures Valid()
      ensures outcome == IncreaseVerdict(old(network.residual), u, increase)
      ensures network.residual == IncreaseResidual(old(network.residual), u, increase)
      ensures outcome == Pass ==> uCounts == old(uCounts)[u := CountOf(old(uCounts), u) + increase]
      ensures outcome != Pass ==> uCounts == old(uCounts)
      ensures snapshots == old(snapshots)
    {
      if increase <= 0 {
        outcome := Fail(NonPositiveIncrease);
      } else if UNode(u) !in Successors(network.residual, Source) && UNode(u) !in Predecessors(network.residual, Source) {
        outcome := Fail(NotAdjacentToSource);
      } else {
        var currentCapacity := network.ArcCapacity(Source, UNode(u));
        IncreaseStep(pred, uSet, quantities, uCounts, network.residual, u, increase, currentCapacity);
        network.SetArcCapacity(currentCapacity + increase, Source, UNode(u));
        uCounts := uCounts[u := CountOf(uCounts, u) + increase];
        outcome := Pass;
      }
    }

    /** Whether `destination` is a successor of `origin`. */
    method ExistsFlow(origin: Node<U, V>, destination: Node<U, V>) returns (found: bool)
      ensures found <==> Capacity(network.residual, origin, destination) > 0
    {
      var successors := Successors(network.residual, origin);
      while successors != {}
        invariant successors <= Successors(network.residual, origin)
        invariant destination in Successors(network.residual, origin) ==> destination in successors
        decreases successors
      {
        var successor :| successor in successors;
        if successor == destination {
          return true;
        }
        successors := successors - {successor};
      }
      return false;
    }

    /**
     The matched pairs: for every successor v of Sink and every predecessor u
     of Source, u is matched with v when u is a successor of v. An element
     of U matched with several elements of V keeps one of them. No v is
     returned with more elements of U than its quantity, and a u whose
     count is one is returned with the one v it is matched with.
     */
    method GetMatches() returns (matches: map<U, V>)
      requires Valid()
      ensures forall u :: u in matches ==> Reported(network.residual, u, matches[u])
      ensures forall u, v :: Reported(network.residual, u, v) ==> u in matches
      ensures forall u :: u in matches ==> u in uSet && matches[u] in quantities && pred(u, matches[u])
      ensures forall v :: |UsMatchedTo(matches, v)| <= QuantityOf(quantities, v)
      ensures |matches| <= |uSet|
      ensures forall u, v :: Reported(network.residual, u, v) && CountOf(uCounts, u) <= 1 ==> u in matches && matches[u] == v
    {
      matches := map[];
      var vNodes := Successors(network.residual, Sink);
      while vNodes != {}
        invariant vNodes <= Successors(network.residual, Sink)
        invariant forall u :: u in matches ==> Reported(network.residual, u, matches[u])
        invariant forall u, v :: Reported(network.residual, u, v) && VNode(v) !in vNodes ==> u in matches
        decreases vNodes
      {
        var vNode :| vNode in vNodes;
        TerminalNeighboursAreValues(pred, uSet, quantities, network.residual, vNode);
        var uNodes := Predecessors(network.residual, Source);
        while uNodes != {}
          invariant uNodes <= Predecessors(network.residual, Source)
          invariant forall u :: u in matches ==> Reported(network.residual, u, matches[u])
          invariant forall u, v :: Reported(network.residual, u, v) && VNode(v) !in vNodes ==> u in matches
          invariant forall u :: Reported(network.residual, u, vNode.v) && UNode(u) !in uNodes ==> u in matches
          decreases uNodes
        {
          var uNode :| uNode in uNodes;
          TerminalNeighboursAreValues(pred, uSet, quantities, network.residual, uNode);
          var flows := ExistsFlow(vNode, uNode);
          if flows {
            matches := matches[uNode.u := vNode.v];
          }
          uNodes := uNodes - {uNode};
        }
        vNodes := vNodes - {vNode};
      }
      forall u | u in matches
        ensures u in uSet && matches[u] in quantities && pred(u, matches[u])
      {
        ReportedPairsAreCompatible(pred, uSet, quantities, network.residual, u, matches[u]);
      }
      QueryWithinQuantity(pred, uSet, quantities, network.residual, matches);
      QueryExactOnSingleCounts(pred, uSet, quantities, uCounts, network.residual, matches);
    }

    /**
     Pins u to v: returns at once when they are already matched, fails when
     u or v has no free unit or is unknown, or when u cannot reach v, and
     otherwise pushes one unit along Source->u->v->Sink. Every check runs
     before the first push.
     */
    method SetMatch(u: U, v: V) returns (outcome: Outcome<MatchError>)
      requires Valid()
      modifies network
      ensures Valid()
      ensures network.residual == SetMatchResidual(old(network.residual), u, v)
      ensures outcome == match Decide(old(network.residual), u, v)
                         case Rejected(e) => Fail(e)
                         case _ => Pass
    {
      SetMatchKeepsWellFormed(pred, uSet, quantities, network.residual, u, v);
      SetMatchKeepsCounts(uCounts, network.residual, u, v);
      if UNode(u) in Successors(network.residual, VNode(v)) {
        // u and v are already matched
        return Pass;
      }
      if UNode(u) !in Successors(network.residual, Source) {
        if Source in Successors(network.residual, UNode(u)) {
          return Fail(UAlreadyMatched);
        } else {
          return Fail(UNotInMatching);
        }
      }
      if Sink !in Successors(network.residual, VNode(v)) {
        if VNode(v) in Successors(network.residual, Sink) {
          return Fail(VAlreadyMatched);
        } else {
          return Fail(VNotInMatching);
        }
      }
      if VNode(v) !in Successors(network.residual, UNode(u)) {
        return Fail(NoPath);
      }
      network.PushFlow(1, Source, UNode(u));
      network.PushFlow(1, UNode(u), VNode(v));
      network.PushFlow(1, VNode(v), Sink);
      outcome := Pass;
    }

    /** A snapshot of the current flow state; it can always be restored. */
    method GetState() returns (state: State<U, V>)
      requires Valid()
      modifies this
      ensures Valid()
      ensures state.residual == network.residual
      ensures WellFormed(pred, uSet, quantities, state.residual)
      ensures uCounts == old(uCounts) && snapshots == old(snapshots)[state.residual := uCounts]
    {
      state := State(network.residual);
      snapshots := snapshots[state.residual := uCounts];
    }

    /**
     Overwrites the flow state with a snapshot taken from this matching;
     the counts return to what they were when it was taken.
     */
    method Restore(state: State<U, V>)
      requires Valid()
      requires state.residual in snapshots
      modifies this, network
      ensures Valid()
      ensures network.residual == state.residual
      ensures uCounts == old(snapshots)[state.residual] && snapshots == old(snapshots)
    {
      network.residual := state.residual;
      uCounts := snapshots[state.residual];
    }
  }

  /*
   The scenarios of the façade's unit tests, replayed against the contracts.
   The tests match u1, u2, u3 with v1, v2, v3; here they are the integers
   1, 2, 3 and 11, 12, 13, so that no element of U equals an element of V.
   */

  /** The compatible pairs of the tests: (1,11), (2,11), (2,12), (3,12), (3,13). */
  function TestPred(u: int, v: int): bool
  {
    v == u + 10 || v == u + 9
  }

  const TestUs: set<int> := {1, 2, 3}
  const TestVs: set<int> := {11, 12, 13}

  /**
   The first match of (1, 11) on the fresh network is accepted, after which
   (2, 12) is still accepted and (2, 13) has no path.
   */
  lemma TestScenarioSteps(c: Residuals<int, int>)
    requires forall o, d :: Capacity(c, o, d) == InitialCapacity(TestPred, TestUs, UnitQuantities(TestVs), o, d)
    ensures Decide(c, 1, 11) == Accepted
    ensures Decide(SetMatchResidual(c, 1, 11), 2, 12) == Accepted
    ensures Decide(SetMatchResidual(c, 1, 11), 2, 13) == Rejected(NoPath)
  {
    var q := UnitQuantities(TestVs);
    DecideOnInitial(TestPred, TestUs, q, c, 1, 11);
    DecideOnInitial(TestPred, TestUs, q, c, 2, 12);
    DecideOnInitial(TestPred, TestUs, q, c, 2, 13);
    DisjointPinKeepsDecision(c, 1, 11, 2, 12);
    DisjointPinKeepsDecision(c, 1, 11, 2, 13);
  }

  /**
   After the match of (1, 11) only 1 has used up its unit from Source, and
   the later match of (2, 12) leaves 3 adjacent to Source.
   */
  lemma TestScenarioSourceArcs(c: Residuals<int, int>, p: Residuals<int, int>)
    requires forall o, d :: Capacity(c, o, d) == InitialCapacity(TestPred, TestUs, UnitQuantities(TestVs), o, d)
    requires Decide(c, 1, 11) == Accepted && p == SetMatchResidual(c, 1, 11)
    ensures Capacity(p, Source, UNode(1)) == 0
    ensures Capacity(p, Source, UNode(2)) == 1 && Capacity(p, Source, UNode(3)) == 1
    ensures Capacity(SetMatchResidual(p, 2, 12), Source, UNode(3)) == 1
  {
    assert Capacity(c, Source, UNode(1)) == 1;
    assert Capacity(c, Source, UNode(2)) == 1;
    assert Capacity(c, Source, UNode(3)) == 1;
    assert !OnPinnedPath(1, 11, Source, UNode(2)) && !OnPinnedPath(1, 11, Source, UNode(3));
    assert !OnPinnedPath(2, 12, Source, UNode(3));
  }

  /** A fresh network of the tests reports no pair. */
  lemma TestFreshReportsNothing(c: Residuals<int, int>)
    requires forall o, d :: Capacity(c, o, d) == InitialCapacity(TestPred, TestUs, UnitQuantities(TestVs), o, d)
    ensures WellFormed(TestPred, TestUs, UnitQuantities(TestVs), c)
    ensures forall u, v :: !Reported(c, u, v)
  {
    InitialIsWellFormed(TestPred, TestUs, UnitQuantities(TestVs), c);
    forall u, v ensures !Reported(c, u, v) {
      assert Capacity(c, VNode(v), UNode(u)) == 0;
    }
  }

  /** After the match of (1, 11), (1, 11) is the one reported pair. */
  lemma TestScenarioPinned(c: Residuals<int, int>, p: Residuals<int, int>)
    requires forall o, d :: Capacity(c, o, d) == InitialCapacity(TestPred, TestUs, UnitQuantities(TestVs), o, d)
    requires Decide(c, 1, 11) == Accepted && p == SetMatchResidual(c, 1, 11)
    ensures forall u, v :: Reported(p, u, v) <==> u in map[1 := 11] && map[1 := 11][u] == v
  {
    TestFreshReportsNothing(c);
    SetMatchReportsOnePairMore(TestPred, TestUs, UnitQuantities(TestVs), c, 1, 11);
  }

  /** The two manual matches of (1, 11) and then (3, 13) on a fresh network are both accepted. */
  lemma TestTwoPins(c: Residuals<int, int>)
    requires forall o, d :: Capacity(c, o, d) == InitialCapacity(TestPred, TestUs, UnitQuantities(TestVs), o, d)
    ensures Decide(c, 1, 11) == Accepted
    ensures Decide(SetMatchResidual(c, 1, 11), 3, 13) == Accepted
  {
    var q := UnitQuantities(TestVs);
    DecideOnInitial(TestPred, TestUs, q, c, 1, 11);
    DecideOnInitial(TestPred, TestUs, q, c, 3, 13);
    DisjointPinKeepsDecision(c, 1, 11, 3, 13);
  }

  /** After both matches exactly the two pinned pairs are reported. */
  lemma TestTwoPinsReported(c: Residuals<int, int>, r: Residuals<int, int>)
    requires forall o, d :: Capacity(c, o, d) == InitialCapacity(TestPred, TestUs, UnitQuantities(TestVs), o, d)
    requires Decide(c, 1, 11) == Accepted
    requires r == SetMatchResidual(SetMatchResidual(c, 1, 11), 3, 13)
    ensures forall u, v :: Reported(r, u, v) <==> u in map[1 := 11, 3 := 13] && map[1 := 11, 3 := 13][u] == v
  {
    var q := UnitQuantities(TestVs);
    var p := SetMatchResidual(c, 1, 11);
    TestScenarioPinned(c, p);
    TestFreshReportsNothing(c);
    SetMatchKeepsWellFormed(TestPred, TestUs, q, c, 1, 11);
    TestTwoPins(c);
    SetMatchReportsOnePairMore(TestPred, TestUs, q, p, 3, 13);
    SecondPinAddsOnePair(p, r);
  }

  /** Adding the pair (3, 13) to the single reported pair (1, 11). */
  lemma SecondPinAddsOnePair(p: Residuals<int, int>, r: Residuals<int, int>)
    requires forall u, v :: Reported(p, u, v) <==> u in map[1 := 11] && map[1 := 11][u] == v
    requires forall u, v :: Reported(r, u, v) <==> Reported(p, u, v) || (Decide(p, 3, 13) == Accepted && u == 3 && v == 13)
    requires Decide(p, 3, 13) == Accepted
    ensures forall u, v :: Reported(r, u, v) <==> u in map[1 := 11, 3 := 13] && map[1 := 11, 3 := 13][u] == v
  {
    forall u, v ensures Reported(r, u, v) <==> u in map[1 := 11, 3 := 13] && map[1 := 11, 3 := 13][u] == v {
      assert Reported(p, u, v) <==> u == 1 && v == 11;
    }
  }

  /**
   A result that meets the contract of the match query on a network whose
   reported pairs are exactly those of `expected` is `expected` itself.
   */
  lemma QueryReadsExactly(p: Residuals<int, int>, matches: map<int, int>, expected: map<int, int>)
    requires forall u, v :: Reported(p, u, v) <==> u in expected && expected[u] == v
    requires forall u :: u in matches ==> Reported(p, u, matches[u])
    requires forall u, v :: Reported(p, u, v) ==> u in matches
    ensures matches == expected
  {
    forall u | u in expected
      ensures u in matches
    {
      assert Reported(p, u, expected[u]);
    }
    forall u | u in matches
      ensures u in expected && matches[u] == expected[u]
    {
      assert Reported(p, u, matches[u]);
    }
    assert matches.Keys == expected.Keys;
  }

  /** Two manual matches on a fresh matching are both reported by the match query. */
  method SetMatchScenario() returns (matches: map<int, int>)
    ensures matches == map[1 := 11, 3 := 13]
  {
    var m := Matching.NewMatchingOfSets(TestPred, TestUs, TestVs);
    ghost var initial := m.network.residual;
    TestTwoPins(initial);
    var outcome := m.SetMatch(1, 11);
    assert outcome == Pass;
    outcome := m.SetMatch(3, 13);
    assert outcome == Pass;
    matches := m.GetMatches();
    TestTwoPinsReported(initial, m.network.residual);
    QueryReadsExactly(m.network.residual, matches, map[1 := 11, 3 := 13]);
  }

  /** The middle of the snapshot scenario: a match of (2, 12) and an increase of 3, then a restore. */
  method ChangeThenRestore(m: Matching<int, int>, state: State<int, int>)
    requires m.Valid()
    requires state.residual in m.snapshots
    modifies m, m.network
    ensures m.Valid()
    ensures m.network.residual == state.residual
    ensures m.uCounts == old(m.snapshots)[state.residual] && m.snapshots == old(m.snapshots)
  {
    var outcome := m.SetMatch(2, 12);
    var increased := m.IncreaseUCount(3, 1);
    m.Restore(state);
  }

  /** The snapshot scenario: later matches and increases are undone by a restore. */
  method SetMatchAndRestoreScenario() returns (fromSource1: nat, fromSource2: nat, fromSource3: nat, matches: map<int, int>)
    ensures fromSource1 == 0 && fromSource2 == 1 && fromSource3 == 1
    ensures matches == map[1 := 11]
  {
    var m := Matching.NewMatchingOfSets(TestPred, TestUs, TestVs);
    TestScenarioSteps(m.network.residual);
    ghost var initial := m.network.residual;
    var outcome := m.SetMatch(1, 11);
    assert outcome == Pass;
    ghost var pinned := m.network.residual;
    TestScenarioSourceArcs(initial, pinned);
    TestScenarioPinned(initial, pinned);
    var state := m.GetState();

    ChangeThenRestore(m, state);
    assert m.uCounts == InitialCounts(TestUs);

    // everything is as it was at the snapshot
    fromSource1 := Capacity(m.network.residual, Source, UNode(1));
    fromSource2 := Capacity(m.network.residual, Source, UNode(2));
    fromSource3 := Capacity(m.network.residual, Source, UNode(3));
    matches := m.GetMatches();
    QueryReadsExactly(pinned, matches, map[1 := 11]);
  }

  /** Matching the same pair again changes nothing; an incompatible pair has no path. */
  method RepeatedSetMatchScenario() returns (first: Outcome<MatchError>, again: Outcome<MatchError>,
                                             incompatible: Outcome<MatchError>)
    ensures first == Pass && again == Pass
    ensures incompatible == Fail(NoPath)
  {
    var m := Matching.NewMatchingOfSets(TestPred, TestUs, TestVs);
    TestScenarioSteps(m.network.residual);
    ghost var initial := m.network.residual;
    first := m.SetMatch(1, 11);
    ghost var pinned := m.network.residual;
    SetMatchIdempotent(initial, 1, 11);
    again := m.SetMatch(1, 11);
    assert m.network.residual == pinned;
    incompatible := m.SetMatch(2, 13);
  }
}

=== FILE: matching_rules.dfy ===
/**
 The rules of the bipartite-matching façade, stated over residual
 capacities: how a new matching lays out its network, the ordered checks of
 a manual match and the single unit of flow it pins, the capacity increase
 of one element of U, and which pairs a query reports as matched.

 `WellFormed` is the invariant of every network a matching can reach from
 construction through manual matches and capacity increases, and
 `CountsKept` ties the units of every element of U to its count; the lemmas
 below show that both hold initially, that both mutating operations keep
 them, and that under them every reported pair is one the predicate
 allowed, no element of V is reported with more elements of U than its
 quantity, and no element of U with more elements of V than its count.
 */
module MatchingRules {
  import opened Network

  /** The five distinguishable failures of a manual match. */
  datatype MatchError =
    | UAlreadyMatched   // u has no free unit left towards Source
    | UNotInMatching    // u was never connected to Source
    | VAlreadyMatched   // v has no free unit left towards Sink
    | VNotInMatching    // v was never connected to Sink
    | NoPath            // no residual arc from u to v

  /** What a manual match decides before it touches the network. */
  datatype Verdict = AlreadyPaired | Rejected(error: MatchError) | Accepted

  /** The two argument failures of a capacity increase. */
  datatype IncreaseError = NonPositiveIncrease | NotAdjacentToSource

  /** Normal return, or the failure the façade raises. */
  datatype Outcome<E> = Pass | Fail(error: E)

  // ---------------------------------------------------------------------
  // Construction

  /**
   The capacity a new matching gives the arc o->d: 1 from Source to every
   u in U, 1 from u to v exactly when both belong to the matching and the
   predicate accepts the pair, the quantity of v from v to Sink, and none
   anywhere else.
   */
  function InitialCapacity<U(==, !new), V(==, !new)>(pred: (U, V) -> bool, uSet: set<U>, quantities: map<V, nat>,
                                         o: Node<U, V>, d: Node<U, V>): nat
  {
    match (o, d)
    case (Source, UNode(u)) => if u in uSet then 1 else 0
    case (UNode(u), VNode(v)) => if u in uSet && v in quantities && pred(u, v) then 1 else 0
    case (VNode(v), Sink) => if v in quantities then quantities[v] else 0
    case _ => 0
  }

  /** The quantities the set-based constructor uses: one of every v. */
  function UnitQuantities<V(==, !new)>(vSet: set<V>): map<V, nat>
  {
    map v | v in vSet :: 1
  }

  /** The set-based constructor lays out the network with quantity 1 for every v in V. */
  lemma UnitQuantitiesLayout<U(!new), V(!new)>(pred: (U, V) -> bool, uSet: set<U>, vSet: set<V>, u: U, v: V)
    ensures InitialCapacity(pred, uSet, UnitQuantities(vSet), VNode(v), Sink) == if v in vSet then 1 else 0
    ensures InitialCapacity(pred, uSet, UnitQuantities(vSet), UNode(u), VNode(v))
         == if u in uSet && v in vSet && pred(u, v) then 1 else 0
    ensures InitialCapacity(pred, uSet, UnitQuantities(vSet), Source, UNode(u)) == if u in uSet then 1 else 0
  {
  }

  // ---------------------------------------------------------------------
  // The invariant

  /**
   The arcs that may carry residual capacity in a matching network: the
   three forward layers Source->U, U->V, V->Sink and their reverses.
   */
  predicate ArcKindAllowed<U(!new), V(!new)>(o: Node<U, V>, d: Node<U, V>)
  {
    match (o, d)
    case (Source, UNode(_)) => true
    case (UNode(_), Source) => true
    case (UNode(_), VNode(_)) => true
    case (VNode(_), UNode(_)) => true
    case (VNode(_), Sink) => true
    case (Sink, VNode(_)) => true
    case _ => false
  }

  /** The elements of U to which v sends a unit back: those matched with v. */
  function UPartners<U(==, !new), V(==, !new)>(uSet: set<U>, c: Residuals<U, V>, v: V): set<U>
  {
    set u | u in uSet && Capacity(c, VNode(v), UNode(u)) > 0
  }

  /** The elements of V that send a unit back to u: those matched with u. */
  function VPartners<U(==, !new), V(==, !new)>(quantities: map<V, nat>, c: Residuals<U, V>, u: U): set<V>
  {
    set v | v in quantities && Capacity(c, VNode(v), UNode(u)) > 0
  }

  /** The quantity of v, 0 for an element outside the matching. */
  function QuantityOf<V(==, !new)>(quantities: map<V, nat>, v: V): nat
  {
    if v in quantities then quantities[v] else 0
  }

  /**
   Flow conservation at the inner nodes: the units v has sent to Sink are
   exactly the units it received from elements of U, and the units u has
   received from Source are exactly the units it sent to elements of V.
   */
  ghost predicate FlowConserved<U(!new), V(!new)>(uSet: set<U>, quantities: map<V, nat>, c: Residuals<U, V>)
  {
    && (forall v {:trigger UPartners(uSet, c, v)} :: Capacity(c, Sink, VNode(v)) == |UPartners(uSet, c, v)|)
    && (forall u {:trigger VPartners(quantities, c, u)} :: Capacity(c, UNode(u), Source) == |VPartners(quantities, c, u)|)
  }

  /**
   The layout part of the invariant: residual capacity only on the layered
   arcs and their reverses; each U-V pair and each V-Sink pair keeps the
   combined capacity (forward plus reverse) that construction gave it; and
   Source is connected only to elements of U.
   */
  ghost predicate CapacityLayout<U(!new), V(!new)>(pred: (U, V) -> bool, uSet: set<U>, quantities: map<V, nat>,
                                                   c: Residuals<U, V>)
  {
    && (forall o, d :: Capacity(c, o, d) > 0 ==> ArcKindAllowed(o, d))
    && (forall u, v {:trigger Capacity(c, UNode(u), VNode(v))} {:trigger Capacity(c, VNode(v), UNode(u))} ::
          Capacity(c, UNode(u), VNode(v)) + Capacity(c, VNode(v), UNode(u))
          == InitialCapacity(pred, uSet, quantities, UNode(u), VNode(v)))
    && (forall v {:trigger Capacity(c, VNode(v), Sink)} {:trigger Capacity(c, Sink, VNode(v))} ::
          Capacity(c, VNode(v), Sink) + Capacity(c, Sink, VNode(v))
          == InitialCapacity(pred, uSet, quantities, VNode(v), Sink))
    && (forall u {:trigger Capacity(c, Source, UNode(u))} {:trigger Capacity(c, UNode(u), Source)} ::
          u !in uSet ==> Capacity(c, Source, UNode(u)) == 0 && Capacity(c, UNode(u), Source) == 0)
  }

  /**
   The invariant that construction establishes and that manual matches and
   capacity increases keep: the layout above, and flow conserved at every
   element of U and of V.
   */
  ghost predicate WellFormed<U(!new), V(!new)>(pred: (U, V) -> bool, uSet: set<U>, quantities: map<V, nat>,
                                               c: Residuals<U, V>)
  {
    CapacityLayout(pred, uSet, quantities, c) && FlowConserved(uSet, quantities, c)
  }

  /** A freshly built network satisfies the invariant. */
  lemma InitialIsWellFormed<U(!new), V(!new)>(pred: (U, V) -> bool, uSet: set<U>, quantities: map<V, nat>,
                                              c: Residuals<U, V>)
    requires forall o, d :: Capacity(c, o, d) == InitialCapacity(pred, uSet, quantities, o, d)
    ensures WellFormed(pred, uSet, quantities, c)
  {
    forall v ensures UPartners(uSet, c, v) == {} {
    }
    forall u ensures VPartners(quantities, c, u) == {} {
    }
  }

  /**
   In a well-formed network only elements of V are successors of Sink and
   only elements of U are predecessors of Source, so a match query reads
   values of the right kind.
   */
  lemma TerminalNeighboursAreValues<U(!new), V(!new)>(pred: (U, V) -> bool, uSet: set<U>, quantities: map<V, nat>,
                                                      c: Residuals<U, V>, n: Node<U, V>)
    requires WellFormed(pred, uSet, quantities, c)
    ensures n in Successors(c, Sink) ==> n.VNode? && n.v in quantities
    ensures n in Predecessors(c, Source) ==> n.UNode? && n.u in uSet
  {
    if n in Successors(c, Sink) {
      assert ArcKindAllowed(Sink, n);
      assert Capacity(c, n, Sink) + Capacity(c, Sink, n) == InitialCapacity(pred, uSet, quantities, n, Sink);
    }
    if n in Predecessors(c, Source) {
      assert ArcKindAllowed(n, Source);
    }
  }

  // ---------------------------------------------------------------------
  // Manual match

  /**
   The ordered checks of a manual match of u with v. The pair is already
   matched when u is a successor of v; otherwise u must still reach from
   Source (else it is either used up or unknown, depending on whether it
   sends back to Source), then v must still reach Sink (likewise), and last
   u must reach v.
   */
  function Decide<U(==, !new), V(==, !new)>(c: Residuals<U, V>, u: U, v: V): (r: Verdict)
    ensures r == AlreadyPaired <==> Capacity(c, VNode(v), UNode(u)) > 0
    ensures r == Rejected(UAlreadyMatched) <==>
      Capacity(c, VNode(v), UNode(u)) == 0 && Capacity(c, Source, UNode(u)) == 0 && Capacity(c, UNode(u), Source) > 0
    ensures r == Rejected(UNotInMatching) <==>
      Capacity(c, VNode(v), UNode(u)) == 0 && Capacity(c, Source, UNode(u)) == 0 && Capacity(c, UNode(u), Source) == 0
    ensures r == Rejected(VAlreadyMatched) <==>
      Capacity(c, VNode(v), UNode(u)) == 0 && Capacity(c, Source, UNode(u)) > 0
      && Capacity(c, VNode(v), Sink) == 0 && Capacity(c, Sink, VNode(v)) > 0
    ensures r == Rejected(VNotInMatching) <==>
      Capacity(c, VNode(v), UNode(u)) == 0 && Capacity(c, Source, UNode(u)) > 0
      && Capacity(c, VNode(v), Sink) == 0 && Capacity(c, Sink, VNode(v)) == 0
    ensures r == Rejected(NoPath) <==>
      Capacity(c, VNode(v), UNode(u)) == 0 && Capacity(c, Source, UNode(u)) > 0
      && Capacity(c, VNode(v), Sink) > 0 && Capacity(c, UNode(u), VNode(v)) == 0
    ensures r == Accepted <==>
      Capacity(c, VNode(v), UNode(u)) == 0 && Capacity(c, Source, UNode(u)) > 0
      && Capacity(c, VNode(v), Sink) > 0 && Capacity(c, UNode(u), VNode(v)) > 0
  {
    if UNode(u) in Successors(c, VNode(v)) then AlreadyPaired
    else if UNode(u) !in Successors(c, Source) then
      if Source in Successors(c, UNode(u)) then Rejected(UAlreadyMatched) else Rejected(UNotInMatching)
    else if Sink !in Successors(c, VNode(v)) then
      if VNode(v) in Successors(c, Sink) then Rejected(VAlreadyMatched) else Rejected(VNotInMatching)
    else if VNode(v) !in Successors(c, UNode(u)) then Rejected(NoPath)
    else Accepted
  }

  /** x->y is one of the arcs (in either direction) of the path Source->u->v->Sink. */
  predicate OnPinnedPath<U(==, !new), V(==, !new)>(u: U, v: V, x: Node<U, V>, y: Node<U, V>)
  {
    || (x, y) == (Source, UNode(u)) || (x, y) == (UNode(u), Source)
    || (x, y) == (UNode(u), VNode(v)) || (x, y) == (VNode(v), UNode(u))
    || (x, y) == (VNode(v), Sink) || (x, y) == (Sink, VNode(v))
  }

  /**
   The network after a manual match of u with v: unchanged unless every
   check passes, and then one unit moved along each of Source->u, u->v and
   v->Sink, with every other arc untouched.
   */
  function SetMatchResidual<U(==, !new), V(==, !new)>(c: Residuals<U, V>, u: U, v: V): (r: Residuals<U, V>)
    ensures Decide(c, u, v) != Accepted ==> r == c
    ensures Decide(c, u, v) == Accepted ==>
      && Capacity(r, Source, UNode(u)) == Capacity(c, Source, UNode(u)) - 1
      && Capacity(r, UNode(u), Source) == Capacity(c, UNode(u), Source) + 1
      && Capacity(r, UNode(u), VNode(v)) == Capacity(c, UNode(u), VNode(v)) - 1
      && Capacity(r, VNode(v), UNode(u)) == Capacity(c, VNode(v), UNode(u)) + 1
      && Capacity(r, VNode(v), Sink) == Capacity(c, VNode(v), Sink) - 1
      && Capacity(r, Sink, VNode(v)) == Capacity(c, Sink, VNode(v)) + 1
    ensures forall x, y {:trigger Capacity(r, x, y)} :: !OnPinnedPath(u, v, x, y) ==> Capacity(r, x, y) == Capacity(c, x, y)
  {
    if Decide(c, u, v) == Accepted then
      var first := Push(c, 1, Source, UNode(u));
      var second := Push(first, 1, UNode(u), VNode(v));
      Push(second, 1, VNode(v), Sink)
    else
      c
  }

  /** A manual match keeps the invariant. */
  lemma SetMatchKeepsWellFormed<U(!new), V(!new)>(pred: (U, V) -> bool, uSet: set<U>, quantities: map<V, nat>,
                                                  c: Residuals<U, V>, u: U, v: V)
    requires WellFormed(pred, uSet, quantities, c)
    ensures WellFormed(pred, uSet, quantities, SetMatchResidual(c, u, v))
  {
    if Decide(c, u, v) == Accepted {
      UnitShiftKeepsWellFormed(pred, uSet, quantities, c, SetMatchResidual(c, u, v), u, v);
    }
  }

  /**
   Moving one unit along Source->u->v->Sink, from a network in which u
   still reaches Source, keeps the invariant.
   */
  lemma UnitShiftKeepsWellFormed<U(!new), V(!new)>(pred: (U, V) -> bool, uSet: set<U>, quantities: map<V, nat>,
                                                   c: Residuals<U, V>, r: Residuals<U, V>, u: U, v: V)
    requires WellFormed(pred, uSet, quantities, c)
    requires Capacity(c, Source, UNode(u)) > 0
    requires Capacity(r, Source, UNode(u)) + 1 == Capacity(c, Source, UNode(u))
    requires Capacity(r, UNode(u), Source) == Capacity(c, UNode(u), Source) + 1
    requires Capacity(r, UNode(u), VNode(v)) + 1 == Capacity(c, UNode(u), VNode(v))
    requires Capacity(r, VNode(v), UNode(u)) == Capacity(c, VNode(v), UNode(u)) + 1
    requires Capacity(r, VNode(v), Sink) + 1 == Capacity(c, VNode(v), Sink)
    requires Capacity(r, Sink, VNode(v)) == Capacity(c, Sink, VNode(v)) + 1
    requires forall x, y {:trigger Capacity(r, x, y)} :: !OnPinnedPath(u, v, x, y) ==> Capacity(r, x, y) == Capacity(c, x, y)
    ensures WellFormed(pred, uSet, quantities, r)
  {
    UnitShiftKeepsLayout(pred, uSet, quantities, c, r, u, v);
    assert u in uSet;
    assert v in quantities && Capacity(c, VNode(v), UNode(u)) == 0 by {
      assert Capacity(c, VNode(v), Sink) + Capacity(c, Sink, VNode(v))
          == InitialCapacity(pred, uSet, quantities, VNode(v), Sink);
      assert Capacity(c, UNode(u), VNode(v)) + Capacity(c, VNode(v), UNode(u))
          == InitialCapacity(pred, uSet, quantities, UNode(u), VNode(v));
    }
    UnitShiftKeepsSinkSide(uSet, quantities, c, r, u, v);
    UnitShiftKeepsSourceSide(uSet, quantities, c, r, u, v);
  }

  /** The layout part of the invariant survives a one-unit shift along Source->u->v->Sink. */
  lemma UnitShiftKeepsLayout<U(!new), V(!new)>(pred: (U, V) -> bool, uSet: set<U>, quantities: map<V, nat>,
                                               c: Residuals<U, V>, r: Residuals<U, V>, u: U, v: V)
    requires CapacityLayout(pred, uSet, quantities, c)
    requires Capacity(c, Source, UNode(u)) > 0
    requires Capacity(r, Source, UNode(u)) + 1 == Capacity(c, Source, UNode(u))
    requires Capacity(r, UNode(u), Source) == Capacity(c, UNode(u), Source) + 1
    requires Capacity(r, UNode(u), VNode(v)) + 1 == Capacity(c, UNode(u), VNode(v))
    requires Capacity(r, VNode(v), UNode(u)) == Capacity(c, VNode(v), UNode(u)) + 1
    requires Capacity(r, VNode(v), Sink) + 1 == Capacity(c, VNode(v), Sink)
    requires Capacity(r, Sink, VNode(v)) == Capacity(c, Sink, VNode(v)) + 1
    requires forall x, y {:trigger Capacity(r, x, y)} :: !OnPinnedPath(u, v, x, y) ==> Capacity(r, x, y) == Capacity(c, x, y)
    ensures CapacityLayout(pred, uSet, quantities, r)
  {
    assert u in uSet;
    forall o, d | Capacity(r, o, d) > 0
      ensures ArcKindAllowed(o, d)
    {
      if !OnPinnedPath(u, v, o, d) {
        assert Capacity(c, o, d) > 0;
      }
    }
    forall u', v'
      ensures Capacity(r, UNode(u'), VNode(v')) + Capacity(r, VNode(v'), UNode(u'))
           == InitialCapacity(pred, uSet, quantities, UNode(u'), VNode(v'))
    {
      if (u', v') != (u, v) {
        assert !OnPinnedPath(u, v, UNode(u'), VNode(v')) && !OnPinnedPath(u, v, VNode(v'), UNode(u'));
      }
    }
    forall v'
      ensures Capacity(r, VNode(v'), Sink) + Capacity(r, Sink, VNode(v'))
           == InitialCapacity(pred, uSet, quantities, VNode(v'), Sink)
    {
      if v' != v {
        assert !OnPinnedPath(u, v, VNode(v'), Sink) && !OnPinnedPath(u, v, Sink, VNode(v'));
      }
    }
    forall u' | u' !in uSet
      ensures Capacity(r, Source, UNode(u')) == 0 && Capacity(r, UNode(u'), Source) == 0
    {
      assert !OnPinnedPath(u, v, Source, UNode(u')) && !OnPinnedPath(u, v, UNode(u'), Source);
    }
  }

  /**
   Moving one unit along Source->u->v->Sink, where v did not yet send
   anything back to u, keeps flow conserved at every element of V: v gains
   u as a partner and one unit towards Sink, and nothing else changes.
   */
  lemma UnitShiftKeepsSinkSide<U(!new), V(!new)>(uSet: set<U>, quantities: map<V, nat>,
                                                 c: Residuals<U, V>, r: Residuals<U, V>, u: U, v: V)
    requires forall v' :: Capacity(c, Sink, VNode(v')) == |UPartners(uSet, c, v')|
    requires u in uSet && Capacity(c, VNode(v), UNode(u)) == 0
    requires Capacity(r, VNode(v), UNode(u)) == 1
    requires Capacity(r, Sink, VNode(v)) == Capacity(c, Sink, VNode(v)) + 1
    requires forall x, y {:trigger Capacity(r, x, y)} :: !OnPinnedPath(u, v, x, y) ==> Capacity(r, x, y) == Capacity(c, x, y)
    ensures forall v' :: Capacity(r, Sink, VNode(v')) == |UPartners(uSet, r, v')|
  {
    forall v' ensures Capacity(r, Sink, VNode(v')) == |UPartners(uSet, r, v')| {
      forall u' | u' != u || v' != v
        ensures Capacity(r, VNode(v'), UNode(u')) == Capacity(c, VNode(v'), UNode(u'))
      {
        assert !OnPinnedPath(u, v, VNode(v'), UNode(u'));
      }
      if v' == v {
        assert UPartners(uSet, r, v) == UPartners(uSet, c, v) + {u};
      } else {
        assert !OnPinnedPath(u, v, Sink, VNode(v'));
        assert UPartners(uSet, r, v') == UPartners(uSet, c, v');
      }
    }
  }

  /**
   The same shift keeps flow conserved at every element of U: u gains v as
   a partner and one unit back to Source, and nothing else changes.
   */
  lemma UnitShiftKeepsSourceSide<U(!new), V(!new)>(uSet: set<U>, quantities: map<V, nat>,
                                                   c: Residuals<U, V>, r: Residuals<U, V>, u: U, v: V)
    requires forall u' :: Capacity(c, UNode(u'), Source) == |VPartners(quantities, c, u')|
    requires v in quantities && Capacity(c, VNode(v), UNode(u)) == 0
    requires Capacity(r, VNode(v), UNode(u)) == 1
    requires Capacity(r, UNode(u), Source) == Capacity(c, UNode(u), Source) + 1
    requires forall x, y {:trigger Capacity(r, x, y)} :: !OnPinnedPath(u, v, x, y) ==> Capacity(r, x, y) == Capacity(c, x, y)
    ensures forall u' :: Capacity(r, UNode(u'), Source) == |VPartners(quantities, r, u')|
  {
    forall u' ensures Capacity(r, UNode(u'), Source) == |VPartners(quantities, r, u')| {
      assert Capacity(c, UNode(u'), Source) == |VPartners(quantities, c, u')|;
      if u' == u {
        assert v !in VPartners(quantities, c, u);
        assert VPartners(quantities, r, u) == VPartners(quantities, c, u) + {v} by {
          UnitShiftPartnersOfU(quantities, c, r, u, v, u);
        }
      } else {
        assert !OnPinnedPath(u, v, UNode(u'), Source);
        assert VPartners(quantities, r, u') == VPartners(quantities, c, u') by {
          UnitShiftPartnersOfU(quantities, c, r, u, v, u');
        }
      }
    }
  }

  /** The elements of V matched with u' after the shift. */
  lemma UnitShiftPartnersOfU<U(!new), V(!new)>(quantities: map<V, nat>, c: Residuals<U, V>, r: Residuals<U, V>,
                                               u: U, v: V, u': U)
    requires v in quantities && Capacity(r, VNode(v), UNode(u)) == 1
    requires forall x, y {:trigger Capacity(r, x, y)} :: !OnPinnedPath(u, v, x, y) ==> Capacity(r, x, y) == Capacity(c, x, y)
    ensures VPartners(quantities, r, u') == VPartners(quantities, c, u') + (if u' == u then {v} else {})
  {
    forall v' | u' != u || v' != v
      ensures Capacity(r, VNode(v'), UNode(u')) == Capacity(c, VNode(v'), UNode(u'))
    {
      assert !OnPinnedPath(u, v, VNode(v'), UNode(u'));
    }
  }

  /** Matching the same pair twice is the same as matching it once. */
  lemma SetMatchIdempotent<U(!new), V(!new)>(c: Residuals<U, V>, u: U, v: V)
    ensures SetMatchResidual(SetMatchResidual(c, u, v), u, v) == SetMatchResidual(c, u, v)
  {
    var r := SetMatchResidual(c, u, v);
    if Decide(c, u, v) == Accepted {
      assert Decide(r, u, v) == AlreadyPaired;
    }
  }

  /**
   After an accepted manual match the pair is reported, and an element of U
   or of V that had a single free unit can take part in no further manual
   match; a further match of that u reports it as already matched unless
   the pair already exists.
   */
  lemma PinnedPairIsReported<U(!new), V(!new)>(c: Residuals<U, V>, u: U, v: V)
    requires Decide(c, u, v) == Accepted
    ensures Reported(SetMatchResidual(c, u, v), u, v)
    ensures Capacity(c, Source, UNode(u)) == 1 ==>
      forall v' :: Decide(SetMatchResidual(c, u, v), u, v') in {AlreadyPaired, Rejected(UAlreadyMatched)}
    ensures Capacity(c, VNode(v), Sink) == 1 ==>
      forall u' :: Decide(SetMatchResidual(c, u, v), u', v) != Accepted
  {
    var r := SetMatchResidual(c, u, v);
    assert UNode(u) in Successors(r, VNode(v));
    assert UNode(u) in Predecessors(r, Source);
    assert VNode(v) in Successors(r, Sink);
    if Capacity(c, Source, UNode(u)) == 1 {
      forall v' ensures Decide(r, u, v') in {AlreadyPaired, Rejected(UAlreadyMatched)} {
        assert Capacity(r, Source, UNode(u)) == 0 && Capacity(r, UNode(u), Source) > 0;
      }
    }
    if Capacity(c, VNode(v), Sink) == 1 {
      forall u' ensures Decide(r, u', v) != Accepted {
        assert Capacity(r, VNode(v), Sink) == 0;
      }
    }
  }

  /**
   A manual match does not change the decision for a pair that shares
   neither its element of U nor its element of V.
   */
  lemma DisjointPinKeepsDecision<U(!new), V(!new)>(c: Residuals<U, V>, u: U, v: V, u': U, v': V)
    requires u' != u && v' != v
    ensures Decide(SetMatchResidual(c, u, v), u', v') == Decide(c, u', v')
  {
    assert !OnPinnedPath(u, v, VNode(v'), UNode(u')) && !OnPinnedPath(u, v, UNode(u'), VNode(v'));
    assert !OnPinnedPath(u, v, Source, UNode(u')) && !OnPinnedPath(u, v, UNode(u'), Source);
    assert !OnPinnedPath(u, v, VNode(v'), Sink) && !OnPinnedPath(u, v, Sink, VNode(v'));
  }

  /**
   On a freshly built network a manual match is accepted exactly when u
   belongs to U, v belongs to V with a positive quantity and the predicate
   accepts the pair; otherwise the first failed check names the reason.
   */
  lemma DecideOnInitial<U(!new), V(!new)>(pred: (U, V) -> bool, uSet: set<U>, quantities: map<V, nat>,
                                      c: Residuals<U, V>, u: U, v: V)
    requires forall o, d :: Capacity(c, o, d) == InitialCapacity(pred, uSet, quantities, o, d)
    ensures Decide(c, u, v) ==
      if u !in uSet then Rejected(UNotInMatching)
      else if v !in quantities || quantities[v] == 0 then Rejected(VNotInMatching)
      else if !pred(u, v) then Rejected(NoPath)
      else Accepted
  {
    assert Capacity(c, VNode(v), UNode(u)) == 0;
    assert Capacity(c, UNode(u), Source) == 0;
    assert Capacity(c, Sink, VNode(v)) == 0;
    assert Capacity(c, Source, UNode(u)) == if u in uSet then 1 else 0;
    assert Capacity(c, VNode(v), Sink) == if v in quantities then quantities[v] else 0;
    assert Capacity(c, UNode(u), VNode(v)) == if u in uSet && v in quantities && pred(u, v) then 1 else 0;
  }

  // ---------------------------------------------------------------------
  // Capacity increase

  /**
   The checks of a capacity increase: it fails when the increase is not
   positive, and then when u is neither a successor nor a predecessor of
   Source.
   */
  function IncreaseVerdict<U(==, !new), V(==, !new)>(c: Residuals<U, V>, u: U, increase: int): (r: Outcome<IncreaseError>)
    ensures r == Fail(NonPositiveIncrease) <==> increase <= 0
    ensures r == Fail(NotAdjacentToSource) <==>
      increase > 0 && Capacity(c, Source, UNode(u)) == 0 && Capacity(c, UNode(u), Source) == 0
    ensures r == Pass <==> increase > 0 && (Capacity(c, Source, UNode(u)) > 0 || Capacity(c, UNode(u), Source) > 0)
  {
    if increase <= 0 then Fail(NonPositiveIncrease)
    else if UNode(u) !in Successors(c, Source) && UNode(u) !in Predecessors(c, Source) then Fail(NotAdjacentToSource)
    else Pass
  }

  /**
   The network after a capacity increase: unchanged when a check fails, and
   otherwise Source->u raised by `increase`, with every other arc untouched.
   */
  function IncreaseResidual<U(==, !new), V(==, !new)>(c: Residuals<U, V>, u: U, increase: int): (r: Residuals<U, V>)
    ensures IncreaseVerdict(c, u, increase) != Pass ==> r == c
    ensures IncreaseVerdict(c, u, increase) == Pass ==>
      Capacity(r, Source, UNode(u)) == Capacity(c, Source, UNode(u)) + increase
    ensures forall x, y {:trigger Capacity(r, x, y)} :: x != Source || y != UNode(u) ==> Capacity(r, x, y) == Capacity(c, x, y)
  {
    if IncreaseVerdict(c, u, increase) == Pass then c[(Source, UNode(u)) := Capacity(c, Source, UNode(u)) + increase]
    else c
  }

  /** A capacity increase keeps the invariant. */
  lemma IncreaseKeepsWellFormed<U(!new), V(!new)>(pred: (U, V) -> bool, uSet: set<U>, quantities: map<V, nat>,
                                                  c: Residuals<U, V>, u: U, increase: int)
    requires WellFormed(pred, uSet, quantities, c)
    ensures WellFormed(pred, uSet, quantities, IncreaseResidual(c, u, increase))
  {
    var r := IncreaseResidual(c, u, increase);
    if IncreaseVerdict(c, u, increase) == Pass {
      assert u in uSet;
      forall o, d | Capacity(r, o, d) > 0
        ensures ArcKindAllowed(o, d)
      {
        if (o, d) != (Source, UNode(u)) {
          assert Capacity(c, o, d) > 0;
        }
      }
      assert CapacityLayout(pred, uSet, quantities, r);
      SourceArcKeepsConservation(uSet, quantities, c, r, u);
    }
  }

  /**
   Changing only the capacity of Source->u keeps flow conserved: the
   partners of every element and the units sent to Sink and back to Source
   stay as they were.
   */
  lemma SourceArcKeepsConservation<U(!new), V(!new)>(uSet: set<U>, quantities: map<V, nat>,
                                                     c: Residuals<U, V>, r: Residuals<U, V>, u: U)
    requires FlowConserved(uSet, quantities, c)
    requires forall x, y {:trigger Capacity(r, x, y)} :: x != Source || y != UNode(u) ==> Capacity(r, x, y) == Capacity(c, x, y)
    ensures FlowConserved(uSet, quantities, r)
  {
    forall v ensures UPartners(uSet, r, v) == UPartners(uSet, c, v) {
    }
    forall u' ensures VPartners(quantities, r, u') == VPartners(quantities, c, u') {
    }
  }

  // ---------------------------------------------------------------------
  // Counts of the elements of U

  /** The count a new matching gives every u: one unit from Source. */
  function InitialCounts<U(==, !new)>(uSet: set<U>): map<U, nat>
  {
    map u | u in uSet :: 1
  }

  /** The count of u, 0 for an element outside the matching. */
  function CountOf<U(==, !new)>(counts: map<U, nat>, u: U): nat
  {
    if u in counts then counts[u] else 0
  }

  /**
   The units of every u, still free on Source->u or used on u->Source, add
   up to its count: construction gives each u one, and only a capacity
   increase adds more.
   */
  ghost predicate CountsKept<U(!new), V(!new)>(counts: map<U, nat>, c: Residuals<U, V>)
  {
    forall u {:trigger CountOf(counts, u)} :: Capacity(c, Source, UNode(u)) + Capacity(c, UNode(u), Source) == CountOf(counts, u)
  }

  /** Every recorded snapshot satisfies the invariant and keeps the counts recorded with it. */
  ghost predicate SnapshotsKept<U(!new), V(!new)>(pred: (U, V) -> bool, uSet: set<U>, quantities: map<V, nat>,
                                                  snapshots: map<Residuals<U, V>, map<U, nat>>)
  {
    forall s | s in snapshots :: WellFormed(pred, uSet, quantities, s) && CountsKept(snapshots[s], s)
  }

  /** A freshly built network gives every u of the matching one unit, and nothing to any other. */
  lemma InitialCountsKept<U(!new), V(!new)>(pred: (U, V) -> bool, uSet: set<U>, quantities: map<V, nat>,
                                            c: Residuals<U, V>)
    requires forall o, d :: Capacity(c, o, d) == InitialCapacity(pred, uSet, quantities, o, d)
    ensures CountsKept(InitialCounts(uSet), c)
  {
    forall u ensures Capacity(c, Source, UNode(u)) + Capacity(c, UNode(u), Source) == CountOf(InitialCounts(uSet), u) {
      assert Capacity(c, UNode(u), Source) == 0;
    }
  }

  /** A manual match moves a unit of u from Source->u to u->Source and keeps every count. */
  lemma SetMatchKeepsCounts<U(!new), V(!new)>(counts: map<U, nat>, c: Residuals<U, V>, u: U, v: V)
    requires CountsKept(counts, c)
    ensures CountsKept(counts, SetMatchResidual(c, u, v))
  {
    var r := SetMatchResidual(c, u, v);
    forall u' ensures Capacity(r, Source, UNode(u')) + Capacity(r, UNode(u'), Source) == CountOf(counts, u') {
      assert Capacity(c, Source, UNode(u')) + Capacity(c, UNode(u'), Source) == CountOf(counts, u');
      if u' != u {
        assert !OnPinnedPath(u, v, Source, UNode(u')) && !OnPinnedPath(u, v, UNode(u'), Source);
      }
    }
  }

  /** A successful capacity increase raises the count of u by the increase, and only that count. */
  lemma IncreaseRaisesCount<U(!new), V(!new)>(counts: map<U, nat>, c: Residuals<U, V>, u: U, increase: int)
    requires CountsKept(counts, c)
    ensures CountsKept(if IncreaseVerdict(c, u, increase) == Pass then counts[u := CountOf(counts, u) + increase]
                       else counts,
                       IncreaseResidual(c, u, increase))
  {
    if IncreaseVerdict(c, u, increase) == Pass {
      var r := IncreaseResidual(c, u, increase);
      var raised := counts[u := CountOf(counts, u) + increase];
      forall u' ensures Capacity(r, Source, UNode(u')) + Capacity(r, UNode(u'), Source) == CountOf(raised, u') {
        assert Capacity(c, Source, UNode(u')) + Capacity(c, UNode(u'), Source) == CountOf(counts, u');
      }
    }
  }

  /**
   One successful capacity increase, stated on the arc update itself: the
   raised network keeps the invariant and the raised count of u.
   */
  lemma IncreaseStep<U(!new), V(!new)>(pred: (U, V) -> bool, uSet: set<U>, quantities: map<V, nat>,
                                       counts: map<U, nat>, c: Residuals<U, V>, u: U, increase: int, current: nat)
    requires WellFormed(pred, uSet, quantities, c) && CountsKept(counts, c)
    requires IncreaseVerdict(c, u, increase) == Pass && current == Capacity(c, Source, UNode(u))
    ensures IncreaseResidual(c, u, increase) == c[(Source, UNode(u)) := current + increase]
    ensures WellFormed(pred, uSet, quantities, c[(Source, UNode(u)) := current + increase])
    ensures CountsKept(counts[u := CountOf(counts, u) + increase], c[(Source, UNode(u)) := current + increase])
  {
    IncreaseKeepsWellFormed(pred, uSet, quantities, c, u, increase);
    IncreaseRaisesCount(counts, c, u, increase);
  }

  /**
   Under the invariant the elements of V matched with u are never more than
   the count of u: every match uses one of its units.
   */
  lemma PartnersWithinCount<U(!new), V(!new)>(pred: (U, V) -> bool, uSet: set<U>, quantities: map<V, nat>,
                                              counts: map<U, nat>, c: Residuals<U, V>, u: U)
    requires WellFormed(pred, uSet, quantities, c) && CountsKept(counts, c)
    ensures |VPartners(quantities, c, u)| <= CountOf(counts, u)
  {
    assert Capacity(c, UNode(u), Source) == |VPartners(quantities, c, u)|;
    assert Capacity(c, Source, UNode(u)) + Capacity(c, UNode(u), Source) == CountOf(counts, u);
  }

  /**
   An element of U whose count was never raised above one is reported with
   one element of V at most.
   */
  lemma SingleCountHasOnePartner<U(!new), V(!new)>(pred: (U, V) -> bool, uSet: set<U>, quantities: map<V, nat>,
                                                   counts: map<U, nat>, c: Residuals<U, V>, u: U, v: V, v': V)
    requires WellFormed(pred, uSet, quantities, c) && CountsKept(counts, c)
    requires CountOf(counts, u) <= 1
    requires Reported(c, u, v) && Reported(c, u, v')
    ensures v == v'
  {
    ReportedPairsAreCompatible(pred, uSet, quantities, c, u, v);
    ReportedPairsAreCompatible(pred, uSet, quantities, c, u, v');
    PartnersWithinCount(pred, uSet, quantities, counts, c, u);
    SubsetNoLarger({v, v'}, VPartners(quantities, c, u));
  }

  // ---------------------------------------------------------------------
  // Match query

  /**
   The pair (u, v) is reported as matched: v is a successor of Sink, u a
   predecessor of Source, and u a successor of v.
   */
  predicate Reported<U(==, !new), V(==, !new)>(c: Residuals<U, V>, u: U, v: V)
  {
    VNode(v) in Successors(c, Sink) && UNode(u) in Predecessors(c, Source) && UNode(u) in Successors(c, VNode(v))
  }

  /**
   In a well-formed network every reported pair is one the predicate
   accepted between members of U and V, and its U-V arc carries exactly one
   unit: none is left forward and one is available to cancel.
   */
  lemma ReportedPairsAreCompatible<U(!new), V(!new)>(pred: (U, V) -> bool, uSet: set<U>, quantities: map<V, nat>,
                                                     c: Residuals<U, V>, u: U, v: V)
    requires WellFormed(pred, uSet, quantities, c)
    requires Reported(c, u, v)
    ensures u in uSet && v in quantities && pred(u, v)
    ensures Capacity(c, UNode(u), VNode(v)) == 0 && Capacity(c, VNode(v), UNode(u)) == 1
  {
    assert Capacity(c, VNode(v), UNode(u)) > 0;
    assert Capacity(c, UNode(u), VNode(v)) + Capacity(c, VNode(v), UNode(u))
        == InitialCapacity(pred, uSet, quantities, UNode(u), VNode(v));
  }

  /**
   Under the invariant a pair is reported exactly when v sends a unit back
   to u: conservation makes that unit show up both as Sink->v and as
   u->Source.
   */
  lemma ReportedIffReverseArc<U(!new), V(!new)>(pred: (U, V) -> bool, uSet: set<U>, quantities: map<V, nat>,
                                                c: Residuals<U, V>, u: U, v: V)
    requires WellFormed(pred, uSet, quantities, c)
    ensures Reported(c, u, v) <==> Capacity(c, VNode(v), UNode(u)) > 0
  {
    if Capacity(c, VNode(v), UNode(u)) > 0 {
      assert Capacity(c, UNode(u), VNode(v)) + Capacity(c, VNode(v), UNode(u))
          == InitialCapacity(pred, uSet, quantities, UNode(u), VNode(v));
      assert u in UPartners(uSet, c, v);
      assert Capacity(c, Sink, VNode(v)) == |UPartners(uSet, c, v)|;
      assert v in VPartners(quantities, c, u);
      assert Capacity(c, UNode(u), Source) == |VPartners(quantities, c, u)|;
    }
  }

  /**
   Under the invariant the elements of U matched with v are never more than
   the quantity of v: one u can take only one unit of v.
   */
  lemma PartnersWithinQuantity<U(!new), V(!new)>(pred: (U, V) -> bool, uSet: set<U>, quantities: map<V, nat>,
                                                 c: Residuals<U, V>, v: V)
    requires WellFormed(pred, uSet, quantities, c)
    ensures |UPartners(uSet, c, v)| <= QuantityOf(quantities, v)
  {
    assert Capacity(c, Sink, VNode(v)) == |UPartners(uSet, c, v)|;
    assert Capacity(c, VNode(v), Sink) + Capacity(c, Sink, VNode(v))
        == InitialCapacity(pred, uSet, quantities, VNode(v), Sink);
  }

  /**
   After a manual match the reported pairs are the ones reported before,
   plus (u, v) when the match was accepted: no earlier pair is lost and no
   other pair appears.
   */
  lemma SetMatchReportsOnePairMore<U(!new), V(!new)>(pred: (U, V) -> bool, uSet: set<U>, quantities: map<V, nat>,
                                                     c: Residuals<U, V>, u: U, v: V)
    requires WellFormed(pred, uSet, quantities, c)
    ensures forall u', v' :: Reported(SetMatchResidual(c, u, v), u', v')
                         <==> Reported(c, u', v') || (Decide(c, u, v) == Accepted && u' == u && v' == v)
  {
    var r := SetMatchResidual(c, u, v);
    SetMatchKeepsWellFormed(pred, uSet, quantities, c, u, v);
    forall u', v'
      ensures Reported(r, u', v') <==> Reported(c, u', v') || (Decide(c, u, v) == Accepted && u' == u && v' == v)
    {
      ReportedIffReverseArc(pred, uSet, quantities, c, u', v');
      ReportedIffReverseArc(pred, uSet, quantities, r, u', v');
      if u' != u || v' != v {
        assert !OnPinnedPath(u, v, VNode(v'), UNode(u'));
      }
    }
  }

  /** The elements of U that a match query pairs with v. */
  function UsMatchedTo<U(==, !new), V(==, !new)>(matches: map<U, V>, v: V): set<U>
  {
    set u | u in matches && matches[u] == v
  }

  /**
   A match query on a network with the invariant returns at most the
   quantity of v elements of U for every v, and at most one pair per
   element of U.
   */
  lemma QueryWithinQuantity<U(!new), V(!new)>(pred: (U, V) -> bool, uSet: set<U>, quantities: map<V, nat>,
                                              c: Residuals<U, V>, matches: map<U, V>)
    requires WellFormed(pred, uSet, quantities, c)
    requires forall u :: u in matches ==> Reported(c, u, matches[u])
    ensures forall v :: |UsMatchedTo(matches, v)| <= QuantityOf(quantities, v)
    ensures |matches| <= |uSet|
  {
    forall u | u in matches
      ensures u in uSet && Capacity(c, VNode(matches[u]), UNode(u)) > 0
    {
      ReportedPairsAreCompatible(pred, uSet, quantities, c, u, matches[u]);
    }
    forall v ensures |UsMatchedTo(matches, v)| <= QuantityOf(quantities, v) {
      SubsetNoLarger(UsMatchedTo(matches, v), UPartners(uSet, c, v));
      PartnersWithinQuantity(pred, uSet, quantities, c, v);
    }
    SubsetNoLarger(matches.Keys, uSet);
  }

  /**
   A match query that keeps one v for every reported u returns, for every u
   whose count is at most one, exactly the v that u is reported with.
   */
  lemma QueryExactOnSingleCounts<U(!new), V(!new)>(pred: (U, V) -> bool, uSet: set<U>, quantities: map<V, nat>,
                                                   counts: map<U, nat>, c: Residuals<U, V>, matches: map<U, V>)
    requires WellFormed(pred, uSet, quantities, c) && CountsKept(counts, c)
    requires forall u :: u in matches ==> Reported(c, u, matches[u])
    requires forall u, v :: Reported(c, u, v) ==> u in matches
    ensures forall u, v :: Reported(c, u, v) && CountOf(counts, u) <= 1 ==> u in matches && matches[u] == v
  {
    forall u, v | Reported(c, u, v) && CountOf(counts, u) <= 1
      ensures u in matches && matches[u] == v
    {
      SingleCountHasOnePartner(pred, uSet, quantities, counts, c, u, v, matches[u]);
    }
  }

  lemma SubsetNoLarger<T>(a: set<T>, b: set<T>)
    requires a <= b
    ensures |a| <= |b|
    decreases a
  {
    if a != {} {
      var x :| x in a;
      SubsetNoLarger(a - {x}, b - {x});
    }
  }
}

=== FILE: network.dfy ===
/**
 A minimal residual-capacity view of the flow network that the matching
 façade drives. The network and its push-relabel solver belong to an external
 flow library; all the façade observes of them is

   - the residual capacity of an ordered pair of nodes (0 for a pair that
     has no arc),
   - successor and predecessor queries, which list the nodes reachable over
     an arc of positive residual capacity,
   - a forced push of flow along one arc, which lowers the arc's residual
     capacity and raises the reverse arc's by the same amount.
 */
module Network {

  /** Node identity: the two terminals, or a wrapped element of U or of V. */
  datatype Node<U, V> = Source | Sink | UNode(u: U) | VNode(v: V)

  type Arc<U, V> = (Node<U, V>, Node<U, V>)

  /** Residual capacities by arc; an arc missing from the map has none. */
  type Residuals<U(==), V(==)> = map<Arc<U, V>, nat>

  function Capacity<U(==, !new), V(==, !new)>(c: Residuals<U, V>, o: Node<U, V>, d: Node<U, V>): nat
  {
    if (o, d) in c then c[(o, d)] else 0
  }

  /** The nodes that `n` can send flow to. */
  function Successors<U(==, !new), V(==, !new)>(c: Residuals<U, V>, n: Node<U, V>): (s: set<Node<U, V>>)
    ensures forall d :: d in s <==> Capacity(c, n, d) > 0
  {
    set a | a in c && a.0 == n && c[a] > 0 :: a.1
  }

  /** The nodes that can send flow to `n`. */
  function Predecessors<U(==, !new), V(==, !new)>(c: Residuals<U, V>, n: Node<U, V>): (s: set<Node<U, V>>)
    ensures forall o :: o in s <==> Capacity(c, o, n) > 0
  {
    set a | a in c && a.1 == n && c[a] > 0 :: a.0
  }

  /**
   Forces `amount` units of flow from `o` to `d`: the residual capacity of
   o->d drops by `amount` and that of d->o grows by as much, so the flow can
   later be cancelled. Pushing more than the residual capacity is a
   programming error of the caller.
   */
  function Push<U(==, !new), V(==, !new)>(c: Residuals<U, V>, amount: nat, o: Node<U, V>, d: Node<U, V>): (r: Residuals<U, V>)
    requires amount <= Capacity(c, o, d)
    ensures o != d ==> Capacity(r, o, d) == Capacity(c, o, d) - amount
    ensures o != d ==> Capacity(r, d, o) == Capacity(c, d, o) + amount
    ensures o == d ==> Capacity(r, o, o) == Capacity(c, o, o)
    ensures forall x, y {:trigger Capacity(r, x, y)} :: (x != o || y != d) && (x != d || y != o) ==> Capacity(r, x, y) == Capacity(c, x, y)
  {
    var lowered := c[(o, d) := Capacity(c, o, d) - amount];
    lowered[(d, o) := Capacity(lowered, d, o) + amount]
  }

  /** A push never changes the combined capacity of an arc and its reverse. */
  lemma PushConservesPairCapacity<U(!new), V(!new)>(c: Residuals<U, V>, amount: nat, o: Node<U, V>, d: Node<U, V>, x: Node<U, V>, y: Node<U, V>)
    requires amount <= Capacity(c, o, d)
    ensures Capacity(Push(c, amount, o, d), x, y) + Capacity(Push(c, amount, o, d), y, x)
         == Capacity(c, x, y) + Capacity(c, y, x)
  {
    var r := Push(c, amount, o, d);
    if (x, y) == (o, d) || (x, y) == (d, o) {
      if o == d {
        assert x == o && y == o;
      }
    }
  }

  /** Pushing the same amount back along the reverse arc cancels a push. */
  lemma PushBackCancels<U(!new), V(!new)>(c: Residuals<U, V>, amount: nat, o: Node<U, V>, d: Node<U, V>, x: Node<U, V>, y: Node<U, V>)
    requires amount <= Capacity(c, o, d)
    ensures amount <= Capacity(Push(c, amount, o, d), d, o)
    ensures Capacity(Push(Push(c, amount, o, d), amount, d, o), x, y) == Capacity(c, x, y)
  {
    var r := Push(c, amount, o, d);
    if o == d {
      assert Capacity(r, o, o) == Capacity(c, o, o);
    } else {
      assert Capacity(r, d, o) == Capacity(c, d, o) + amount;
    }
  }

  /**
   The network object. Its residual map is replaced in place by the
   operations below.
   */
  class FlowNetwork<U(==, !new), V(==, !new)> {
    var residual: Residuals<U, V>

    constructor ()
      ensures residual == map[]
    {
      residual := map[];
    }

    function ArcCapacity(o: Node<U, V>, d: Node<U, V>): nat
      reads this
    {
      Capacity(residual, o, d)
    }

    /** Creates the arc o->d if it is missing and overwrites its capacity. */
    method SetArcCapacity(capacity: nat, o: Node<U, V>, d: Node<U, V>)
      modifies this
      ensures residual == old(residual)[(o, d) := capacity]
      ensures ArcCapacity(o, d) == capacity
      ensures forall x, y {:trigger Capacity(residual, x, y)} :: x != o || y != d ==> Capacity(residual, x, y) == Capacity(old(residual), x, y)
    {
      residual := residual[(o, d) := capacity];
    }

    /** The solver's forced push along one arc. */
    method PushFlow(amount: nat, o: Node<U, V>, d: Node<U, V>)
      requires amount <= ArcCapacity(o, d)
      modifies this
      ensures residual == Push(old(residual), amount, o, d)
    {
      residual := Push(residual, amount, o, d);
    }
  }
}

=== FILE: node_collision.dfy ===
/**
 Node identity as the façade writes it: elements of U and elements of V are
 wrapped by one and the same value-node constructor, so when U and V share a
 type an element of U equal to an element of V is a single node of the
 network. A compatible pair (x, x) then becomes a self-arc, and the first
 check of a manual match, "is u a successor of v?", already holds on a
 freshly built network: the match of (x, x) returns without pinning
 anything. The rest of the model tags U-nodes and V-nodes apart, where the
 same match is accepted.
 */
module NodeCollision {
  import opened Network
  import opened MatchingRules

  /** A node as written: a terminal, or a wrapped value of either side. */
  datatype ValueNode<T> = SourceNode | SinkNode | Value(value: T)

  type WrittenResiduals<T(==)> = map<(ValueNode<T>, ValueNode<T>), nat>

  function WrittenCapacity<T(==, !new)>(c: WrittenResiduals<T>, o: ValueNode<T>, d: ValueNode<T>): nat
  {
    if (o, d) in c then c[(o, d)] else 0
  }

  /**
   The capacity construction gives o->d when U and V are the same type T
   and share the node wrapper: Source->x for x in U, x->Sink for x in V,
   x->y for compatible x in U and y in V.
   */
  function WrittenInitialCapacity<T(==, !new)>(pred: (T, T) -> bool, uSet: set<T>, quantities: map<T, nat>,
                                               o: ValueNode<T>, d: ValueNode<T>): nat
  {
    match (o, d)
    case (SourceNode, Value(u)) => if u in uSet then 1 else 0
    case (Value(v), SinkNode) => if v in quantities then quantities[v] else 0
    case (Value(u), Value(v)) => if u in uSet && v in quantities && pred(u, v) then 1 else 0
    case _ => 0
  }

  /** The first check of a manual match as written: u is a successor of v. */
  predicate WrittenAlreadyPaired<T(==, !new)>(c: WrittenResiduals<T>, u: T, v: T)
  {
    WrittenCapacity(c, Value(v), Value(u)) > 0
  }

  /** U = V = {0}, quantity 1, every pair compatible: the network as written. */
  function CollidingNetwork(): WrittenResiduals<int>
  {
    map[(Value(0), SinkNode) := 1, (SourceNode, Value(0)) := 1, (Value(0), Value(0)) := 1]
  }

  /**
   On the freshly built network of U = V = {0}, the pair (0, 0) already
   passes as matched, although no flow was ever pushed and Sink has no
   successor, so no match query would report it.
   */
  lemma FreshSelfPairLooksMatched()
    ensures forall o, d :: WrittenCapacity(CollidingNetwork(), o, d)
                        == WrittenInitialCapacity((x: int, y: int) => true, {0}, map[0 := 1], o, d)
    ensures WrittenAlreadyPaired(CollidingNetwork(), 0, 0)
    ensures WrittenCapacity(CollidingNetwork(), SinkNode, Value(0)) == 0
  {
  }

  /** The same inputs with U-nodes and V-nodes tagged apart. */
  function TaggedNetwork(): Residuals<int, int>
  {
    map[(VNode(0), Sink) := 1, (Source, UNode(0)) := 1, (UNode(0), VNode(0)) := 1]
  }

  /** With tagged nodes the manual match of (0, 0) on the fresh network is accepted and pins the pair. */
  lemma TaggedSelfPairIsAccepted()
    ensures Decide(TaggedNetwork(), 0, 0) == Accepted
    ensures Reported(SetMatchResidual(TaggedNetwork(), 0, 0), 0, 0)
  {
    var c := TaggedNetwork();
    var pred := (x: int, y: int) => true;
    forall o, d
      ensures Capacity(c, o, d) == InitialCapacity(pred, {0}, map[0 := 1], o, d)
    {
    }
    DecideOnInitial(pred, {0}, map[0 := 1], c, 0, 0);
    PinnedPairIsReported(c, 0, 0);
  }
}
